=== FILE: README.md ===
# Course seat tracker: a Dafny model

A Telegram bot that logs in to the Çukurova University course-registration
portal with a headless browser. Every 180 seconds it reads the remaining-seat
badge of each course and sends a chat message when a course goes from 0
remaining seats to some. This project models the part of `ders-takip-bot.py`
that makes decisions:

- **Capacity parsing** (`get_course_info`, module `CourseInfo`, with the
  Python string operations it uses in module `Text`). The scraped course-name
  texts and badge texts are zipped. A row is kept when its stripped name is
  non-empty and its badge contains `Kalan:`. The value is `int` of the
  stripped text after the last colon. A later row for the same name
  overwrites an earlier one. If any kept row's value does not parse, the
  whole result is `{}`.
- **The poll job** (`check_courses`, module `Tracker`). With a subscription
  and a browser session, the job first checks that the course page still
  loads. If it does not, it sends one "session expired" notice and drops the
  session and the subscription. Otherwise, a non-empty fetched snapshot is
  compared with `last_check`: a course is announced when its previous count
  was 0 and its current count is positive. A course with no previous entry
  uses its current count as the previous one, so it never fires. The fetched
  snapshot then replaces `last_check` wholesale.
- **The handlers' state effects** (`get_password`, `subscribe`, `unsubscribe`,
  `stop`). Each one is a pure function on the globals
  `(driver present, is_subscribed, last_check)`. `Step` and `Run` drive them
  from a sequence of events.

A snapshot (the Python dict `course name -> seats`) is a `seq<(string, int)>`
in dict insertion order, with no name twice (module `Snapshots`). `Put`
keeps an existing key in its place, as Python's dict does. So the keys of a
parsed snapshot follow the row that first counted each course
(`CourseInfo.CollectFirstOrder`), and announcements follow that order. The browser and
Telegram are replaced by their outcomes. These are: whether the course page
loaded (`alive`), the snapshot `get_course_info` returned, the outcome of the
password step (`LoginOutcome`), and, for parsing, the scraped element texts
(`Page`; `None` when the table never appeared).

Behaviours of the code that the model keeps:

- No handler resets `last_check`. A failed liveness check, `unsubscribe`
  and `stop` all leave it as it was (`ExpiredSessionNotice`, `Unsubscribe`).
  Only a login whose fetch comes back empty leaves it empty (`Login`).
- A successful login stores the snapshot read right after it as
  `last_check`, even when that snapshot is empty (`Login`).
- The poll job runs every 180 seconds from start-up, whatever the commands
  do; `/subscribe` reads a snapshot but announces nothing.
- `get_password` never touches `is_subscribed`. A rejected re-login while
  subscribed leaves the flag set with no driver, and a later accepted login
  resumes announcements without a new `/subscribe`
  (`Scenarios.ReloginResumesAnnouncements`). Only a poll with both a
  subscription and a driver announces anything
  (`Tracker.StepAnnouncesOnlyWhenActive`).
- Seat counts are any integers, since `int()` accepts a sign. A negative
  count never fires, because firing needs a positive current count.
- A reply that raises inside a handler's `try` block sends control to its
  `except` branch. In `get_password` this happens after `last_check` was
  stored, and the error path drops the driver (`ConfirmFailed`). In
  `subscribe` the status reply comes before the baseline update, so the
  update is skipped while the flag is still set (`statusSent`).

## Model

| member | source | states |
|---|---|---|
| Snapshots.Lookup | ders-takip-bot.py:251 | `d.get(name)` finds a value exactly when the name is a key, and in a dict it is that key's value |
| Snapshots.Put | ders-takip-bot.py:140 | `d[name] = v` keeps every existing key in place when `name` is already present, and otherwise appends `(name, v)` at the end |
| Snapshots.PutLookup | ders-takip-bot.py:140 | after `d[name] = v`, the key set gains `name`, `name` maps to `v`, every other key keeps its value, and no key appears twice |
| Text.TrimStartSpec | ders-takip-bot.py:137 | removes only whitespace from the front, and what remains does not start with whitespace |
| Text.TrimEndSpec | ders-takip-bot.py:137 | removes only whitespace from the end, and what remains does not end with whitespace |
| Text.StripSpec | ders-takip-bot.py:137 | `strip()` returns a slice of the text with only whitespace around it, and the slice neither starts nor ends with whitespace |
| Text.StripEmpty | ders-takip-bot.py:137-138 | a stripped name is empty (so the row is skipped) exactly when the name is all whitespace |
| Text.ContainsIff | ders-takip-bot.py:138 | the test `"Kalan:" in text` holds exactly when the label occurs at some offset of the text |
| Text.AfterLastColonSpec | ders-takip-bot.py:139 | `split(":")[-1]` is the suffix that has no colon and is either the whole text or starts just after a colon |
| Text.AfterLastColonSuffix | ders-takip-bot.py:139 | the last `:`-segment of `pre + post` is `post` when `pre` ends in a colon and `post` has none |
| Text.ParseIntAccepts | ders-takip-bot.py:139 | `int()` succeeds exactly on an optional sign followed by one or more ASCII digits |
| Text.ParseIntToString | ders-takip-bot.py:139 | `int(str(n)) == n` for every integer `n`, with no limit on the number of digits (see Left out) |
| Text.LeadingZeroDigits | ders-takip-bot.py:139 | a leading `0` leaves the value of a digit run unchanged, the step behind `int("007") == 7` |
| Text.ParseIntPadded | ders-takip-bot.py:139 | `int()` of a digit run is its decimal value; a leading `0` or a `+` sign gives the same value, and a `-` sign its negation (`int("007") == 7`, `int("+5") == 5`, `int("-007") == -7`) |
| Text.StripPadded | ders-takip-bot.py:139 | stripping `" " + token` gives the token back when the token has no whitespace at either end |
| CourseInfo.ClassifyRowCases | ders-takip-bot.py:137-139 | a zipped row is skipped exactly when its name is all whitespace or its badge lacks `Kalan:`, raises exactly when it is not skipped and the stripped last `:`-segment is not an integer literal, and otherwise counts that literal's value under the name with surrounding whitespace removed, so the key neither starts nor ends with whitespace |
| CourseInfo.Rows | ders-takip-bot.py:136 | `zip(course_names, capacities)` yields as many rows as the shorter list |
| CourseInfo.RowsPairUp | ders-takip-bot.py:136 | the i-th zipped row is the i-th name paired with the i-th badge |
| CourseInfo.Collect | ders-takip-bot.py:135-141 | the loop's dict never holds a name twice, and the loop raises exactly when some row's value does not parse |
| CourseInfo.CollectLastWins | ders-takip-bot.py:140 | every name's value in the dict is the value of the last row with that name |
| CourseInfo.LastSeatsFound | ders-takip-bot.py:138-140 | a name has a value exactly when some kept row carries that name |
| CourseInfo.GetCourseInfo | ders-takip-bot.py:123-146 | the result is `{}` when the table never appears or any kept badge fails to parse; otherwise its keys are exactly the names of kept rows, each with its last row's value, listed in the order of each name's first kept row |
| CourseInfo.FirstRowSpec | ders-takip-bot.py:136-140 | the reference index of a name's first counted row: a row counting the name, with none before it, and present exactly when some row counts the name |
| CourseInfo.CollectFirstOrder | ders-takip-bot.py:135-141 | the loop's dict holds every counted name, ordered by the row that first counted it, because `d[name] = v` keeps an existing key in place |
| CourseInfo.BadgeHasLabel | ders-takip-bot.py:138 | a badge reading `... Kalan: n` passes the label test |
| CourseInfo.BadgeSegment | ders-takip-bot.py:139 | the stripped last segment of `... Kalan: n` is the decimal text of `n` |
| CourseInfo.CapacityBadgeRoundTrip | ders-takip-bot.py:136-140 | a non-blank name next to a badge reading `... Kalan: n` is counted under the stripped name with exactly `n` seats |
| CourseInfo.SingleRowPage | ders-takip-bot.py:135-142 | a page whose only zipped row counts `n` seats for one course yields exactly that one-course dict |
| CourseInfo.SingleCourseRows | ders-takip-bot.py:136-140 | a one-name page with a `Kalan: n` badge has exactly one zipped row, counting `n` seats under the stripped name, however many badges follow |
| CourseInfo.SingleCoursePage | ders-takip-bot.py:132-142 | a one-name page with a `Kalan: n` badge, plus any unpaired extra badges, yields `{name: n}` |
| Tracker.Transitions | ders-takip-bot.py:250-253 | a course is announced exactly when its previous count was 0 and its current count is positive (so a course seen for the first time never fires), in snapshot order |
| Tracker.Poll | ders-takip-bot.py:211-271 | with no subscription or no driver, nothing happens. A dead page sends exactly one expiry notice, drops the driver and the subscription, and keeps `last_check`. An empty fetch changes nothing. Otherwise the 0-to-positive courses are announced, one notice each in snapshot order, and the fetch becomes `last_check` |
| Tracker.PollTwiceSilent | ders-takip-bot.py:250-268 | a second poll with the same non-empty snapshot announces no course |
| Tracker.DroppedCourseSilent | ders-takip-bot.py:251-268 | a course that a non-empty poll did not list cannot be announced by the next poll |
| Tracker.EmptyBaselineSilent | ders-takip-bot.py:251-253 | with `last_check == {}` no course is announced |
| Tracker.Login | ders-takip-bot.py:148-209 | an accepted login has a driver and takes its snapshot, even an empty one, as `last_check`. When the success reply then raises, the snapshot is still stored but the error path leaves no driver. A failed setup or a rejected login leaves no driver and keeps `last_check`. The flag is untouched |
| Tracker.Subscribe | ders-takip-bot.py:324-369 | without a driver, or with a dead page, nothing changes; otherwise the flag is set, and a non-empty snapshot replaces `last_check` unless the status reply listing it raised |
| Tracker.Unsubscribe | ders-takip-bot.py:371-385 | ends with no driver and no subscription, and keeps `last_check` |
| Tracker.Stop | ders-takip-bot.py:299-317 | ends with no driver and no subscription, and keeps `last_check` |
| Tracker.StepAnnouncesOnlyWhenActive | ders-takip-bot.py:215-216 | only a poll with a live page, a subscription and a driver announces a course |
| Tracker.RunKeepsDistinct | ders-takip-bot.py:268 | `last_check` never holds a name twice through any run of events whose snapshots are dicts |
| Tracker.UnsubscribedPollsInert | ders-takip-bot.py:215-216 | without a subscription, any number of polls send nothing and change nothing |
| Scenarios.ZeroToPositiveAnnounced | ders-takip-bot.py:250-268 | baseline `{CS101: 0, CS102: 5}`, fetch `{CS101: 3, CS102: 5}`: only `CS101` with 3 seats is announced, and the fetch becomes the baseline |
| Scenarios.FailedFetchKeepsBaseline | ders-takip-bot.py:245-247 | an empty fetch announces nothing and keeps `{CS101: 0}` |
| Scenarios.ExpiredSessionNotice | ders-takip-bot.py:224-240 | a dead page sends one expiry notice, drops driver and subscription, and keeps the baseline |
| Scenarios.ReloginResumesAnnouncements | ders-takip-bot.py:173-188 | a rejected re-login leaves the flag set with no driver; a later accepted login resumes announcements |
| Scenarios.SubscribeReplyFailureKeepsBaseline | ders-takip-bot.py:347-364 | when the status reply raises, `{CS101: 0}` stays the baseline and the flag is set |
| Scenarios.ConfirmFailedStoresSnapshot | ders-takip-bot.py:173-199 | when the success reply raises, the fetched `{CS101: 0}` is the baseline, the driver is gone, and the next poll announces nothing |

## Left out

- The Selenium driver: setup, page navigation, waits and element lookups (`setup_driver`, `login_to_system`, the CSS/ID selectors). These are browser I/O. They enter the model only as their outcomes: `alive`, `LoginOutcome`, and the scraped texts in `Page`.
- Telegram: reply texts, message deletion, the conversation states of `/login` and `/cancel`, and `/start`. A `Notice` records a send attempt only. Every poll-job message goes to `chat_id=context.job.context` (ders-takip-bot.py:227, :262), which `main` sets to `dispatcher.bot.id`, the bot's own id (:426). From reading the code, such a send is expected to fail, and the failure is caught and logged (:231-232, :264-265).
- The job queue's 180-second schedule. `Run` simply takes poll events in order.
- The job removal in `stop`, because it removes nothing. `run_repeating` at ders-takip-bot.py:426 is given no `name`, so python-telegram-bot 13 names the job after its callback, `check_courses`. `get_jobs_by_name(str(chat id))` at :304 then matches no job, and polls keep running after `/stop`, as `Run` assumes.
- The notification text and its `datetime.now()` timestamp. These are clock output; a notice is the pair (course, seats).
- Failures of the poll job's `send_message` calls and of `driver.quit()`. The source logs the failed sends and swallows the failed quits without a log (ders-takip-bot.py:166, :196, :235, :311, :378). The quit at :184 is not caught locally: it falls into the inner `except` at :189, which quits again and still clears the driver. The state effect is the same either way. A reply that raises in `unsubscribe`, or at the end of `subscribe`, comes after every state change and so changes nothing.
- A failure of the error reply in `get_password`'s inner `except` branch, which skips the driver cleanup after it and leaves the driver set. Only the first failing reply of a handler is modelled.
- Concurrency between the job-queue thread that runs `check_courses` and the dispatcher thread that runs the handlers. The source shares `driver`, `is_subscribed` and `last_check` between them without a lock. The model takes every handler and every poll as one atomic step, so it cannot produce an interleaving such as `get_password` storing its snapshot while a poll sits between its comparison loop and its own `last_check` assignment.
- The Flask health endpoint and its thread, `load_dotenv`, environment variables and logging configuration. These are network, concurrency and environment plumbing.
- Text.ParseIntAccepts: Python's `int()` also accepts underscores between digits and non-ASCII Unicode digits. Here it accepts only an optional sign followed by ASCII digits. CPython 3.11 and later, and the 2022 security releases of 3.7 to 3.10, also reject decimal strings of more than 4300 digits; the model accepts any length.
- Text.ParseIntToString: holds for every integer here; under the 4300-digit conversion limit of those CPython versions, `str(n)` itself raises for larger `n`.

=== FILE: course_info.dfy ===
/**
 * `get_course_info`: turns the two element lists scraped from the course
 * table (course-name spans and capacity badges) into a seat snapshot.
 */
module CourseInfo {
  import opened Optional
  import opened Snapshots
  import opened Text

  /** The badge label that marks a remaining-seats count. */
  const RemainingLabel: string := "Kalan:"

  /** The texts of the scraped elements; the table wait timing out is `page == None`. */
  datatype Page = Page(names: seq<string>, badges: seq<string>)

  /** How one zipped (name, badge) pair is treated by the loop body. */
  datatype Row =
    | Skipped                        // empty name, or no "Kalan:" in the badge
    | Malformed                      // `int(...)` raises ValueError
    | Seats(name: string, seats: int)

  function ClassifyRow(name: string, badge: string): Row {
    var course := Strip(name);
    if course == [] || !Contains(badge, RemainingLabel) then Skipped
    else
      match ParseInt(Strip(AfterLastColon(badge)))
      case None => Malformed
      case Some(v) => Seats(course, v)
  }

  /**
   * The loop body's three outcomes. A row is skipped exactly when the name
   * is all whitespace or the label occurs nowhere in the badge; it raises
   * exactly when it is not skipped and the stripped last `:`-segment is not
   * an integer literal; otherwise it is counted under the name with the
   * surrounding whitespace removed, with the value of that literal.
   */
  lemma ClassifyRowCases(name: string, badge: string)
    ensures ClassifyRow(name, badge).Skipped? <==>
      AllSpace(name) || !exists i :: OccursAt(badge, RemainingLabel, i)
    ensures ClassifyRow(name, badge).Malformed? <==>
      && !AllSpace(name)
      && (exists i :: OccursAt(badge, RemainingLabel, i))
      && !IsIntLiteral(Strip(AfterLastColon(badge)))
    ensures ClassifyRow(name, badge).Seats? ==>
      var row := ClassifyRow(name, badge);
      && row.name != []
      && (exists i :: Around(name, row.name, i))
      && !IsSpace(row.name[0]) && !IsSpace(row.name[|row.name| - 1])
      && ParseInt(Strip(AfterLastColon(badge))) == Some(row.seats)
  {
    StripEmpty(name);
    StripSpec(name);
    ContainsIff(badge, RemainingLabel);
    ParseIntAccepts(Strip(AfterLastColon(badge)));
  }

  /** Length of `zip(names, badges)`: the shorter list. */
  function ZipLength(p: Page): nat {
    if |p.names| <= |p.badges| then |p.names| else |p.badges|
  }

  /** The rows `zip(names, badges)` yields, classified. */
  function Rows(p: Page): (rows: seq<Row>)
    ensures |rows| == ZipLength(p)
    decreases |p.names|
  {
    if p.names == [] || p.badges == [] then []
    else [ClassifyRow(p.names[0], p.badges[0])] + Rows(Page(p.names[1..], p.badges[1..]))
  }

  /** `zip` pairs the i-th name with the i-th badge, up to the shorter list. */
  lemma {:induction false} RowsPairUp(p: Page, i: nat)
    requires i < ZipLength(p)
    ensures Rows(p)[i] == ClassifyRow(p.names[i], p.badges[i])
    decreases i
  {
    if i > 0 {
      RowsPairUp(Page(p.names[1..], p.badges[1..]), i - 1);
    }
  }

  /**
   * The dict after the loop has run over `rows`, or None once an iteration
   * has raised. The dict never holds a name twice, and the loop raises
   * exactly when one of the rows is malformed.
   */
  function Collect(rows: seq<Row>): (r: Option<seq<Entry>>)
    ensures r.Some? ==> DistinctNames(r.value)
    ensures r.None? <==> Malformed in rows
  {
    if rows == [] then Some([])
    else
      var init := rows[..|rows| - 1];
      assert rows == init + [rows[|rows| - 1]];
      match Collect(init)
      case None => None
      case Some(acc) =>
        match rows[|rows| - 1]
        case Skipped => Some(acc)
        case Malformed => None
        case Seats(name, seats) =>
          PutLookup(acc, name, seats);
          Some(Put(acc, name, seats))
  }

  /**
   * Reference reading of the dict: the seats of the LAST row that names
   * `name`, found by scanning backwards.
   */
  function LastSeats(rows: seq<Row>, name: string): Option<int> {
    if rows == [] then None
    else
      var row := rows[|rows| - 1];
      if row.Seats? && row.name == name then Some(row.seats)
      else LastSeats(rows[..|rows| - 1], name)
  }

  /** A later row for the same course overwrites the value of an earlier one. */
  lemma {:induction false} CollectLastWins(rows: seq<Row>, name: string)
    requires Collect(rows).Some?
    ensures Lookup(Collect(rows).value, name) == LastSeats(rows, name)
  {
    if rows != [] {
      var init := rows[..|rows| - 1];
      assert rows == init + [rows[|rows| - 1]];
      CollectLastWins(init, name);
      var row := rows[|rows| - 1];
      if row.Seats? {
        PutLookup(Collect(init).value, row.name, row.seats);
      }
    }
  }

  /** Some row records seats for `name`. */
  ghost predicate Counted(rows: seq<Row>, name: string) {
    exists seats :: Seats(name, seats) in rows
  }

  /** A course has a recorded value exactly when some row names it. */
  lemma {:induction false} LastSeatsFound(rows: seq<Row>, name: string)
    ensures LastSeats(rows, name).Some? <==> Counted(rows, name)
  {
    if rows != [] {
      var init := rows[..|rows| - 1];
      assert rows == init + [rows[|rows| - 1]];
      LastSeatsFound(init, name);
    }
  }

  /**
   * Reference reading of the key order: the index of the FIRST row that
   * counts seats for `name`, found by scanning forwards; `|rows|` when no
   * row does.
   */
  function FirstRow(rows: seq<Row>, name: string): (k: nat)
    ensures k <= |rows|
  {
    if rows == [] then 0
    else if rows[0].Seats? && rows[0].name == name then 0
    else 1 + FirstRow(rows[1..], name)
  }

  /** `FirstRow` is the index of a row counting `name` with no such row before it. */
  lemma {:induction false} FirstRowSpec(rows: seq<Row>, name: string)
    ensures FirstRow(rows, name) < |rows| <==> Counted(rows, name)
    ensures FirstRow(rows, name) < |rows| ==>
      rows[FirstRow(rows, name)].Seats? && rows[FirstRow(rows, name)].name == name
    ensures forall m :: 0 <= m < FirstRow(rows, name) ==> !(rows[m].Seats? && rows[m].name == name)
  {
    if rows != [] {
      FirstRowSpec(rows[1..], name);
      assert forall r :: r in rows <==> r == rows[0] || r in rows[1..];
      assert forall m :: 0 < m < |rows| ==> rows[m] == rows[1..][m - 1];
    }
  }

  /** Appending a row moves no name's first counted row. */
  lemma {:induction false} FirstRowSnoc(init: seq<Row>, x: Row, name: string)
    ensures FirstRow(init + [x], name) ==
      if FirstRow(init, name) < |init| then FirstRow(init, name)
      else if x.Seats? && x.name == name then |init|
      else |init| + 1
  {
    if init != [] {
      assert (init + [x])[1..] == init[1..] + [x];
      FirstRowSnoc(init[1..], x, name);
    }
  }

  /** The keys of `d` are counted names, and they appear in the order of their first counted rows. */
  ghost predicate OrderedByFirstRow(rows: seq<Row>, d: seq<Entry>) {
    && (forall k :: 0 <= k < |d| ==> FirstRow(rows, d[k].0) < |rows|)
    && (forall i, j :: 0 <= i < j < |d| ==> FirstRow(rows, d[i].0) < FirstRow(rows, d[j].0))
  }

  /**
   * `d[name] = v` keeps an existing key in place and appends a new one, so
   * the loop's dict lists every counted name once, ordered by the row that
   * first counted it.
   */
  lemma {:induction false} CollectFirstOrder(rows: seq<Row>)
    requires Collect(rows).Some?
    ensures OrderedByFirstRow(rows, Collect(rows).value)
    ensures forall name :: FirstRow(rows, name) < |rows| ==> name in Names(Collect(rows).value)
  {
    if rows != [] {
      var init := rows[..|rows| - 1];
      var x := rows[|rows| - 1];
      assert rows == init + [x];
      CollectFirstOrder(init);
      var acc := Collect(init).value;
      var d := Collect(rows).value;
      if x.Seats? {
        assert d == Put(acc, x.name, x.seats);
        PutLookup(acc, x.name, x.seats);
      } else {
        assert d == acc;
      }
      forall name | FirstRow(rows, name) < |rows|
        ensures name in Names(d)
      {
        FirstRowSnoc(init, x, name);
      }
      PutKeepsOrder(init, x, acc, d);
    }
  }

  /** One loop iteration keeps the dict ordered by first counted rows. */
  lemma PutKeepsOrder(init: seq<Row>, x: Row, acc: seq<Entry>, d: seq<Entry>)
    requires OrderedByFirstRow(init, acc)
    requires forall name :: FirstRow(init, name) < |init| ==> name in Names(acc)
    requires x.Seats? ==> d == Put(acc, x.name, x.seats)
    requires !x.Seats? ==> d == acc
    ensures OrderedByFirstRow(init + [x], d)
  {
    var rows := init + [x];
    forall k | 0 <= k < |acc|
      ensures FirstRow(rows, acc[k].0) == FirstRow(init, acc[k].0)
    {
      FirstRowSnoc(init, x, acc[k].0);
    }
    if x.Seats? && x.name !in Names(acc) {
      FirstRowSnoc(init, x, x.name);
      assert d == acc + [(x.name, x.seats)];
      assert FirstRow(rows, d[|acc|].0) == |init|;
    }
  }

  /**
   * `get_course_info(driver)`. The result is `{}` when the page never
   * showed the table or when any counted badge does not end in an integer;
   * otherwise it records every stripped, non-empty name whose badge says
   * "Kalan:", with the value from its last such row, and nothing else.
   */
  function GetCourseInfo(page: Option<Page>): (r: seq<Entry>)
    ensures DistinctNames(r)
    ensures page.None? ==> r == []
    ensures page.Some? && Malformed in Rows(page.value) ==> r == []
    ensures page.Some? && Malformed !in Rows(page.value) ==>
      forall name :: Lookup(r, name) == LastSeats(Rows(page.value), name)
    ensures forall name :: name in Names(r) <==>
      page.Some? && Malformed !in Rows(page.value) && Counted(Rows(page.value), name)
    ensures page.Some? ==> OrderedByFirstRow(Rows(page.value), r)
  {
    match page
    case None => []
    case Some(p) =>
      var rows := Rows(p);
      match Collect(rows)
      case None => []
      case Some(s) =>
        assert forall name :: Lookup(s, name) == LastSeats(rows, name) by {
          forall name ensures Lookup(s, name) == LastSeats(rows, name) {
            CollectLastWins(rows, name);
          }
        }
        assert forall name :: LastSeats(rows, name).Some? <==> Counted(rows, name) by {
          forall name ensures LastSeats(rows, name).Some? <==> Counted(rows, name) {
            LastSeatsFound(rows, name);
          }
        }
        CollectFirstOrder(rows);
        s
  }


  /** The remaining-seats label occurs in "<pre>Kalan: <n>". */
  lemma BadgeHasLabel(pre: string, n: int)
    ensures Contains(pre + RemainingLabel + " " + IntToString(n), RemainingLabel)
  {
    var badge := pre + RemainingLabel + " " + IntToString(n);
    assert badge[|pre|..|pre| + |RemainingLabel|] == RemainingLabel;
    assert OccursAt(badge, RemainingLabel, |pre|);
    ContainsIff(badge, RemainingLabel);
  }

  /** The stripped text after the last colon of "<pre>Kalan: <n>" is the rendering of `n`. */
  lemma BadgeSegment(pre: string, n: int)
    ensures Strip(AfterLastColon(pre + RemainingLabel + " " + IntToString(n))) == IntToString(n)
  {
    var digits := IntToString(n);
    IntToStringShape(n);
    assert pre + RemainingLabel + " " + digits == (pre + RemainingLabel) + (" " + digits);
    AfterLastColonSuffix(pre + RemainingLabel, " " + digits);
    StripPadded(digits);
  }

  /**
   * A badge that reads "... Kalan: <n>" next to a non-blank name is counted,
   * under the stripped name, with exactly `n` seats.
   */
  lemma CapacityBadgeRoundTrip(name: string, pre: string, n: int)
    requires Strip(name) != []
    ensures ClassifyRow(name, pre + RemainingLabel + " " + IntToString(n)) == Seats(Strip(name), n)
  {
    BadgeHasLabel(pre, n);
    BadgeSegment(pre, n);
    ParseIntToString(n);
  }

  /** A single counted row makes a one-course dict. */
  lemma CollectSingle(course: string, n: int)
    ensures Collect([Seats(course, n)]) == Some([(course, n)])
  {
    var rows := [Seats(course, n)];
    assert rows[..0] == [];
    assert Collect([]) == Some([]);
    assert Put([], course, n) == [(course, n)];
  }

  /** A page whose only zipped row counts `n` seats for `course` yields `{course: n}`. */
  lemma SingleRowPage(p: Page, course: string, n: int)
    requires Rows(p) == [Seats(course, n)]
    ensures GetCourseInfo(Some(p)) == [(course, n)]
  {
    CollectSingle(course, n);
  }

  /** A one-name page with a "... Kalan: <n>" badge has one counted row, whatever extra badges follow. */
  lemma SingleCourseRows(name: string, pre: string, n: int, extra: seq<string>)
    requires Strip(name) != []
    ensures Rows(Page([name], [pre + RemainingLabel + " " + IntToString(n)] + extra)) == [Seats(Strip(name), n)]
  {
    var p := Page([name], [pre + RemainingLabel + " " + IntToString(n)] + extra);
    CapacityBadgeRoundTrip(name, pre, n);
    assert Page(p.names[1..], p.badges[1..]).names == [];
  }

  /**
   * A page listing one named course whose badge reads "... Kalan: <n>"
   * (with any number of extra badges, which `zip` ignores) yields the
   * one-course snapshot.
   */
  lemma SingleCoursePage(name: string, pre: string, n: int, extra: seq<string>)
    requires Strip(name) != []
    ensures GetCourseInfo(Some(Page([name], [pre + RemainingLabel + " " + IntToString(n)] + extra)))
      == [(Strip(name), n)]
  {
    var p := Page([name], [pre + RemainingLabel + " " + IntToString(n)] + extra);
    SingleCourseRows(name, pre, n, extra);
    SingleRowPage(p, Strip(name), n);
  }
}

=== FILE: optional.dfy ===
/** A value that may be missing: a `dict.get` on an absent key, or an `int()` that raised. */
module Optional {

  datatype Option<T> = None | Some(value: T) {

    /** The held value, or `fallback` when there is none (the second argument of `dict.get`). */
    function ValueOr(fallback: T): T {
      if Some? then value else fallback
    }
  }
}

=== FILE: scenarios.dfy ===
/** Concrete runs of the tracker, each one an instance of the general rules. */
module Scenarios {
  import opened Optional
  import opened Snapshots
  import opened Tracker

  /**
   * A course recorded with 0 seats that now has 3 is announced; one that
   * stays at 5 is not; the fetch becomes the new baseline.
   */
  lemma ZeroToPositiveAnnounced()
    ensures var s := Session(true, true, [("CS101", 0), ("CS102", 5)]);
      Poll(s, true, [("CS101", 3), ("CS102", 5)])
        == Stepped(Session(true, true, [("CS101", 3), ("CS102", 5)]), [CourseAvailable("CS101", 3)])
  {
  }

  /** An empty fetch (the scrape failed) announces nothing and keeps the baseline. */
  lemma FailedFetchKeepsBaseline()
    ensures var s := Session(true, true, [("CS101", 0)]);
      Poll(s, true, []) == Stepped(s, [])
  {
  }

  /**
   * A dead course page while subscribed sends one expiry notice and drops
   * the driver and the subscription; the baseline is kept.
   */
  lemma ExpiredSessionNotice()
    ensures var s := Session(true, true, [("CS101", 0)]);
      Poll(s, false, [("CS101", 4)]) == Stepped(Session(false, false, [("CS101", 0)]), [SessionExpired])
  {
  }

  /**
   * A rejected re-login while subscribed leaves the flag set with no
   * driver; a later accepted login resumes announcements without a new
   * `/subscribe`.
   */
  lemma ReloginResumesAnnouncements()
    ensures var events := [
        LoginDone(Accepted([("CS101", 0)])),
        SubscribeCmd(true, [], true),
        LoginDone(Rejected)
      ];
      Run(Initial, events).session == Session(false, true, [("CS101", 0)])
    ensures var events := [
        LoginDone(Accepted([("CS101", 0)])),
        SubscribeCmd(true, [], true),
        LoginDone(Rejected),
        LoginDone(Accepted([("CS101", 0)])),
        Tick(true, [("CS101", 2)])
      ];
      Run(Initial, events).notices == [CourseAvailable("CS101", 2)]
  {
  }

  /**
   * When the status reply of `/subscribe` fails, the flag is still set but
   * the snapshot it listed does not become the baseline.
   */
  lemma SubscribeReplyFailureKeepsBaseline()
    ensures Subscribe(Session(true, false, [("CS101", 0)]), true, [("CS101", 3)], false)
      == Session(true, true, [("CS101", 0)])
  {
  }

  /**
   * When the success reply of the password step fails, the snapshot read
   * after the login is already the baseline, but the error path drops the
   * driver, so the next poll announces nothing.
   */
  lemma ConfirmFailedStoresSnapshot()
    ensures var events := [LoginDone(ConfirmFailed([("CS101", 0)])), Tick(true, [("CS101", 2)])];
      Run(Session(true, true, []), events) == Stepped(Session(false, true, [("CS101", 0)]), [])
  {
  }
}

=== FILE: snapshots.dfy ===
/**
 * A seat snapshot: the Python dict `course name -> remaining seats` that the
 * bot keeps in `last_check` and rebuilds on every poll. It is modelled as a
 * sequence of pairs in dict insertion order, so that the order of
 * `d.items()` is visible to the model.
 */
module Snapshots {
  import opened Optional

  /** One dict item: course name and remaining seats. */
  type Entry = (string, int)

  /** The set of course names (the dict's keys). */
  function Names(s: seq<Entry>): set<string> {
    set e | e in s :: e.0
  }

  /** A Python dict never holds a key twice. */
  ghost predicate DistinctNames(s: seq<Entry>) {
    forall i, j :: 0 <= i < j < |s| ==> s[i].0 != s[j].0
  }

  /** Position of the first item whose name is `name`. */
  function Find(s: seq<Entry>, name: string): (r: Option<nat>)
    ensures r.None? <==> name !in Names(s)
    ensures r.Some? ==> r.value < |s| && s[r.value].0 == name
    ensures r.Some? ==> forall k :: 0 <= k < r.value ==> s[k].0 != name
  {
    if s == [] then None
    else if s[0].0 == name then Some(0)
    else
      assert Names(s) == {s[0].0} + Names(s[1..]) by {
        assert forall e :: e in s <==> e == s[0] || e in s[1..];
      }
      match Find(s[1..], name)
      case None => None
      case Some(i) => Some(i + 1)
  }

  /** `d.get(name)`: the seats recorded for `name`, if any. */
  function Lookup(s: seq<Entry>, name: string): (r: Option<int>)
    ensures r.Some? <==> name in Names(s)
    ensures r.Some? ==> (name, r.value) in s
    ensures DistinctNames(s) ==> forall i :: 0 <= i < |s| && s[i].0 == name ==> r == Some(s[i].1)
  {
    match Find(s, name)
    case None => None
    case Some(i) => Some(s[i].1)
  }

  /** `d.get(name, default)` */
  function Get(s: seq<Entry>, name: string, default: int): int {
    Lookup(s, name).ValueOr(default)
  }

  /**
   * `d[name] = seats`: overwrites the value of an existing key in place
   * (keeping its position) or appends a new key at the end.
   */
  function Put(s: seq<Entry>, name: string, seats: int): (r: seq<Entry>)
    ensures name in Names(s) ==> |r| == |s| && forall i :: 0 <= i < |s| ==> r[i].0 == s[i].0
    ensures name !in Names(s) ==> r == s + [(name, seats)]
  {
    match Find(s, name)
    case None => s + [(name, seats)]
    case Some(i) => s[i := (name, seats)]
  }

  /** Writing a key makes it present with the written value and leaves every other key alone. */
  lemma PutLookup(s: seq<Entry>, name: string, seats: int)
    requires DistinctNames(s)
    ensures DistinctNames(Put(s, name, seats))
    ensures Names(Put(s, name, seats)) == Names(s) + {name}
    ensures Lookup(Put(s, name, seats), name) == Some(seats)
    ensures forall n :: n != name ==> Lookup(Put(s, name, seats), n) == Lookup(s, n)
  {
  }
}

=== FILE: text.dfy ===
/**
 * The few Python string operations the capacity parser relies on:
 * `str.strip()`, the substring test `p in t`, `t.split(":")[-1]` and `int(t)`.
 */
module Text {
  import opened Optional

  /** `c.isspace()` in Python: general category Zs, or bidirectional class WS, B or S. */
  predicate IsSpace(c: char) {
    var n := c as int;
    || (9 <= n <= 13) || (28 <= n <= 32)
    || n == 0x85 || n == 0xA0 || n == 0x1680
    || (0x2000 <= n <= 0x200A)
    || n == 0x2028 || n == 0x2029 || n == 0x202F || n == 0x205F || n == 0x3000
  }

  ghost predicate AllSpace(s: string) {
    forall c | c in s :: IsSpace(c)
  }

  /** `s.lstrip()`: drops the whitespace at the front. */
  function TrimStart(s: string): string {
    if s == [] || !IsSpace(s[0]) then s else TrimStart(s[1..])
  }

  /** `s.rstrip()`: drops the whitespace at the end. */
  function TrimEnd(s: string): string {
    if s == [] || !IsSpace(s[|s| - 1]) then s else TrimEnd(s[..|s| - 1])
  }

  /** `s.strip()` */
  function Strip(s: string): string {
    TrimEnd(TrimStart(s))
  }

  /** `lstrip()` removes only whitespace, and all of it: the rest does not start with whitespace. */
  lemma {:induction false} TrimStartSpec(s: string)
    ensures var r := TrimStart(s);
      && |r| <= |s| && r == s[|s| - |r|..]
      && AllSpace(s[..|s| - |r|])
      && (r == [] || !IsSpace(r[0]))
  {
    if s != [] && IsSpace(s[0]) {
      TrimStartSpec(s[1..]);
      var r := TrimStart(s[1..]);
      assert s[..|s| - |r|] == [s[0]] + s[1..][..|s| - 1 - |r|];
    }
  }

  /** `rstrip()` removes only whitespace, and all of it: the rest does not end with whitespace. */
  lemma {:induction false} TrimEndSpec(s: string)
    ensures var r := TrimEnd(s);
      && |r| <= |s| && r == s[..|r|]
      && AllSpace(s[|r|..])
      && (r == [] || !IsSpace(r[|r| - 1]))
  {
    if s != [] && IsSpace(s[|s| - 1]) {
      TrimEndSpec(s[..|s| - 1]);
      var r := TrimEnd(s[..|s| - 1]);
      assert s[|r|..] == s[..|s| - 1][|r|..] + [s[|s| - 1]];
    }
  }

  /**
   * What `strip()` leaves is a slice of `s` with only whitespace around it,
   * and it neither starts nor ends with whitespace.
   */
  lemma StripSpec(s: string)
    ensures exists i :: Around(s, Strip(s), i)
    ensures var r := Strip(s); r == [] || (!IsSpace(r[0]) && !IsSpace(r[|r| - 1]))
  {
    var t := TrimStart(s);
    var r := TrimEnd(t);
    TrimStartSpec(s);
    TrimEndSpec(t);
    var i := |s| - |t|;
    assert Around(s, r, i) by {
      assert s[i..i + |r|] == t[..|r|];
      assert s[i + |r|..] == t[|r|..];
    }
    assert r == Strip(s);
  }

  /** Stripping leaves nothing exactly when the text is all whitespace. */
  lemma StripEmpty(s: string)
    ensures Strip(s) == [] <==> AllSpace(s)
  {
    var t := TrimStart(s);
    TrimStartSpec(s);
    TrimEndSpec(t);
    if Strip(s) == [] {
      assert s == s[..|s| - |t|] + t;
      assert AllSpace(t) by { assert t[0..] == t; }
    } else {
      StripSpec(s);
      var i :| Around(s, Strip(s), i);
      assert s[i] == Strip(s)[0];
    }
  }

  /** `s` is `r` at offset `i` with only whitespace before and after it. */
  ghost predicate Around(s: string, r: string, i: int) {
    && 0 <= i && i + |r| <= |s|
    && s[i..i + |r|] == r
    && AllSpace(s[..i]) && AllSpace(s[i + |r|..])
  }

  /** `text[i:i+len(pat)] == pat` */
  ghost predicate OccursAt(text: string, pat: string, i: int) {
    0 <= i && i + |pat| <= |text| && text[i..i + |pat|] == pat
  }

  /** `pat in text` for strings: compares `pat` with each window of `text`, left to right. */
  function Contains(text: string, pat: string): bool
    decreases |text|
  {
    if |pat| > |text| then false
    else if text[..|pat|] == pat then true
    else Contains(text[1..], pat)
  }

  /** The substring test is true exactly when `pat` occurs at some offset of `text`. */
  lemma {:induction false} ContainsIff(text: string, pat: string)
    ensures Contains(text, pat) <==> exists i :: OccursAt(text, pat, i)
    decreases |text|
  {
    if |pat| > |text| {
    } else if text[..|pat|] == pat {
      assert OccursAt(text, pat, 0);
    } else {
      ContainsIff(text[1..], pat);
      if Contains(text[1..], pat) {
        var i :| OccursAt(text[1..], pat, i);
        assert text[1..][i..i + |pat|] == text[i + 1..i + 1 + |pat|];
        assert OccursAt(text, pat, i + 1);
      }
      if exists i :: OccursAt(text, pat, i) {
        var i :| OccursAt(text, pat, i);
        assert i != 0;
        assert text[1..][i - 1..i - 1 + |pat|] == text[i..i + |pat|];
        assert OccursAt(text[1..], pat, i - 1);
      }
    }
  }

  /**
   * `s.split(":")[-1]`: the text after the last colon, or all of `s` when it
   * has no colon.
   */
  function AfterLastColon(s: string): string {
    if s == [] || s[|s| - 1] == ':' then []
    else AfterLastColon(s[..|s| - 1]) + [s[|s| - 1]]
  }

  /**
   * The last `:`-segment is a colon-free suffix of `s` that is either all of
   * `s` or starts right after a colon.
   */
  lemma {:induction false} AfterLastColonSpec(s: string)
    ensures var r := AfterLastColon(s);
      && |r| <= |s| && r == s[|s| - |r|..]
      && ':' !in r
      && (|r| == |s| || s[|s| - |r| - 1] == ':')
  {
    if s != [] && s[|s| - 1] != ':' {
      var init, c := s[..|s| - 1], s[|s| - 1];
      AfterLastColonSpec(init);
      var r0 := AfterLastColon(init);
      var r := r0 + [c];
      assert AfterLastColon(s) == r;
      assert s == init + [c];
      assert s[|s| - |r|..] == init[|init| - |r0|..] + [c];
      assert ':' !in r by {
        assert forall x :: x in r ==> x in r0 || x == c;
      }
      if |r| < |s| {
        assert s[|s| - |r| - 1] == init[|init| - |r0| - 1];
      }
    }
  }

  predicate IsDigit(c: char) {
    '0' <= c <= '9'
  }

  ghost predicate AllDigits(s: string) {
    forall k :: 0 <= k < |s| ==> IsDigit(s[k])
  }

  /** Value of a run of ASCII digits, most significant first. */
  function DigitsValue(s: string): int {
    if s == [] then 0
    else DigitsValue(s[..|s| - 1]) * 10 + (s[|s| - 1] as int - '0' as int)
  }

  /** What `int()` accepts here: an optional sign followed by one or more ASCII digits. */
  ghost predicate IsIntLiteral(s: string) {
    || (|s| > 0 && AllDigits(s))
    || (|s| > 1 && (s[0] == '+' || s[0] == '-') && AllDigits(s[1..]))
  }

  /** Checks that every character of `s` is a digit. */
  function DigitsOnly(s: string): bool {
    s == [] || (IsDigit(s[0]) && DigitsOnly(s[1..]))
  }

  lemma {:induction false} DigitsOnlyIff(s: string)
    ensures DigitsOnly(s) <==> AllDigits(s)
  {
    if s != [] {
      DigitsOnlyIff(s[1..]);
      assert forall k :: 1 <= k < |s| ==> s[k] == s[1..][k - 1];
    }
  }

  /** `int(s)` for a stripped `s`: None where Python raises ValueError. */
  function ParseInt(s: string): Option<int> {
    if |s| > 1 && (s[0] == '+' || s[0] == '-') && DigitsOnly(s[1..]) then
      var v := DigitsValue(s[1..]);
      Some(if s[0] == '-' then -v else v)
    else if |s| > 0 && DigitsOnly(s) then Some(DigitsValue(s))
    else None
  }

  /** `int()` succeeds exactly on an optional sign followed by one or more ASCII digits. */
  lemma ParseIntAccepts(s: string)
    ensures ParseInt(s).Some? <==> IsIntLiteral(s)
  {
    DigitsOnlyIff(s);
    if |s| > 1 {
      DigitsOnlyIff(s[1..]);
    }
  }

  /** Decimal rendering of a natural number, most significant digit first. */
  function NatToString(n: nat): (s: string)
    ensures |s| > 0 && AllDigits(s)
  {
    var d := ['0' + ((n % 10) as char)];
    if n < 10 then d else NatToString(n / 10) + d
  }

  /** `str(n)`: decimal rendering, with a minus sign for negative numbers. */
  function IntToString(n: int): string {
    if n < 0 then "-" + NatToString(-n) else NatToString(n)
  }

  lemma {:induction false} DigitsOfNat(n: nat)
    ensures DigitsValue(NatToString(n)) == n
  {
    var d := ['0' + ((n % 10) as char)];
    if n >= 10 {
      DigitsOfNat(n / 10);
      var s := NatToString(n / 10) + d;
      assert s[..|s| - 1] == NatToString(n / 10);
    }
  }

  /** `int(str(n)) == n`: parsing inverts rendering. */
  lemma ParseIntToString(n: int)
    ensures ParseInt(IntToString(n)) == Some(n)
  {
    if n < 0 {
      DigitsOfNat(-n);
      assert IntToString(n)[1..] == NatToString(-n);
      DigitsOnlyIff(NatToString(-n));
    } else {
      DigitsOfNat(n);
      DigitsOnlyIff(NatToString(n));
    }
  }

  /** A leading zero does not change a digit run's value (`int("007") == 7`). */
  lemma {:induction false} LeadingZeroDigits(s: string)
    requires AllDigits(s)
    ensures AllDigits("0" + s) && DigitsValue("0" + s) == DigitsValue(s)
  {
    if s != [] {
      LeadingZeroDigits(s[..|s| - 1]);
      assert ("0" + s)[..|s|] == "0" + s[..|s| - 1];
    }
  }

  /**
   * `int()` on a padded or signed digit run: a leading zero and a `+` sign
   * leave the value alone, and a `-` sign negates it (`int("007") == 7`,
   * `int("+5") == 5`, `int("-007") == -7`).
   */
  lemma ParseIntPadded(d: string)
    requires |d| > 0 && AllDigits(d)
    ensures ParseInt(d) == Some(DigitsValue(d))
    ensures ParseInt("0" + d) == Some(DigitsValue(d))
    ensures ParseInt("+" + d) == Some(DigitsValue(d))
    ensures ParseInt("-" + d) == Some(-DigitsValue(d))
  {
    ParseIntDigits(d);
    ParseIntZero(d);
    ParseIntSigned(d);
  }

  /** A leading zero does not change what a digit run parses to. */
  lemma ParseIntZero(d: string)
    requires |d| > 0 && AllDigits(d)
    ensures ParseInt("0" + d) == Some(DigitsValue(d))
  {
    var z := "0" + d;
    LeadingZeroDigits(d);
    ParseIntDigits(z);
  }

  /** An unsigned digit run parses to its decimal value. */
  lemma ParseIntDigits(d: string)
    requires |d| > 0 && AllDigits(d)
    ensures ParseInt(d) == Some(DigitsValue(d))
  {
    DigitsOnlyIff(d);
    assert !(d[0] == '+' || d[0] == '-') by { assert IsDigit(d[0]); }
  }

  /** A signed digit run parses to its value, negated under `-`. */
  lemma ParseIntSigned(d: string)
    requires |d| > 0 && AllDigits(d)
    ensures ParseInt("+" + d) == Some(DigitsValue(d))
    ensures ParseInt("-" + d) == Some(-DigitsValue(d))
  {
    DigitsOnlyIff(d);
    assert ("+" + d)[0] == '+' && ("+" + d)[1..] == d;
    assert ("-" + d)[0] == '-' && ("-" + d)[1..] == d;
  }

  /** The text after the last colon of `pre + post` is `post` when `pre` ends in a colon and `post` has none. */
  lemma {:induction false} AfterLastColonSuffix(pre: string, post: string)
    requires |pre| > 0 && pre[|pre| - 1] == ':'
    requires ':' !in post
    ensures AfterLastColon(pre + post) == post
  {
    if post != [] {
      var init := post[..|post| - 1];
      assert ':' !in init by { assert forall c :: c in init ==> c in post; }
      AfterLastColonSuffix(pre, init);
      assert (pre + post)[..|pre + post| - 1] == pre + init;
      assert init + [post[|post| - 1]] == post;
    }
  }

  /** A rendered integer is a non-empty run of signs and digits: no colon, no whitespace at its ends. */
  lemma IntToStringShape(n: int)
    ensures var d := IntToString(n);
      |d| > 0 && ':' !in d && !IsSpace(d[0]) && !IsSpace(d[|d| - 1])
  {
    var d := IntToString(n);
    if n < 0 {
      assert d[1..] == NatToString(-n);
      assert forall k :: 1 <= k < |d| ==> d[k] == d[1..][k - 1];
    }
  }

  /** Stripping one leading space off a token with no whitespace at its ends gives the token back. */
  lemma StripPadded(d: string)
    requires |d| > 0 && !IsSpace(d[0]) && !IsSpace(d[|d| - 1])
    ensures Strip(" " + d) == d
  {
    assert (" " + d)[1..] == d;
    assert TrimStart(" " + d) == d;
    assert TrimEnd(d) == d;
  }
}

=== FILE: tracker.dfy ===
/**
 * The seat-availability tracker: the globals `driver`, `is_subscribed` and
 * `last_check`, the poll job `check_courses`, and the state effects of the
 * `/login` password step, `/subscribe`, `/unsubscribe` and `/stop`. The
 * browser and Telegram are replaced by their outcomes: whether the course
 * page still loads, and the snapshot `get_course_info` produced.
 */
module Tracker {
  import opened Optional
  import opened Snapshots

  /** The bot's globals: is there a browser session (`driver`), `is_subscribed`, and `last_check`. */
  datatype Session = Session(driverPresent: bool, subscribed: bool, lastCheck: seq<Entry>)

  /** The globals at start-up: no driver, not subscribed, `last_check = {}`. */
  const Initial: Session := Session(false, false, [])

  /** A chat message the poll job sends; the text and its timestamp are not modelled. */
  datatype Notice = SessionExpired | CourseAvailable(course: string, seats: int)

  /** What one event leaves behind: the new globals and the chat notices sent, in order. */
  datatype Stepped = Stepped(session: Session, notices: seq<Notice>)

  /** A poll does anything at all only with a subscription and a driver. */
  predicate Active(s: Session) {
    s.subscribed && s.driverPresent
  }

  /**
   * The transition rule: the previous count, defaulting to the current one
   * for a course not seen before, is 0 and the current count is positive.
   */
  predicate Fires(lastCheck: seq<Entry>, e: Entry) {
    Get(lastCheck, e.0, e.1) == 0 && e.1 > 0
  }

  /** `a` can be obtained from `b` by deleting elements (order is kept). */
  ghost predicate SubsequenceOf<T>(a: seq<T>, b: seq<T>) {
    || a == []
    || (b != [] && ((a[0] == b[0] && SubsequenceOf(a[1..], b[1..])) || SubsequenceOf(a, b[1..])))
  }

  /**
   * The courses of `current` to announce, in the order of `current`. A course
   * is announced exactly when it was recorded with 0 seats and now has some:
   * a course absent from `lastCheck` never fires.
   */
  function Transitions(lastCheck: seq<Entry>, current: seq<Entry>): (r: seq<Entry>)
    ensures forall e :: e in r <==> e in current && e.1 > 0 && Lookup(lastCheck, e.0) == Some(0)
    ensures SubsequenceOf(r, current)
  {
    if current == [] then []
    else
      var rest := Transitions(lastCheck, current[1..]);
      assert forall e :: e in current <==> e == current[0] || e in current[1..];
      if Fires(lastCheck, current[0]) then
        assert ([current[0]] + rest)[1..] == rest;
        [current[0]] + rest
      else rest
  }

  /** One availability notice per firing course, in the same order. */
  function Announce(ts: seq<Entry>): (ns: seq<Notice>)
    ensures |ns| == |ts|
    ensures forall i :: 0 <= i < |ts| ==> ns[i] == CourseAvailable(ts[i].0, ts[i].1)
  {
    seq(|ts|, i requires 0 <= i < |ts| => CourseAvailable(ts[i].0, ts[i].1))
  }

  lemma AnnounceMembers(ts: seq<Entry>)
    ensures SessionExpired !in Announce(ts)
    ensures forall n, c :: CourseAvailable(n, c) in Announce(ts) <==> (n, c) in ts
  {
  }

  /** Announcing a subsequence of a snapshot gives a subsequence of the snapshot's notices. */
  lemma {:induction false} AnnounceSubsequence(a: seq<Entry>, b: seq<Entry>)
    requires SubsequenceOf(a, b)
    ensures SubsequenceOf(Announce(a), Announce(b))
    decreases |b|
  {
    if a != [] {
      assert Announce(b)[1..] == Announce(b[1..]);
      if a[0] == b[0] && SubsequenceOf(a[1..], b[1..]) {
        AnnounceSubsequence(a[1..], b[1..]);
        assert Announce(a)[1..] == Announce(a[1..]);
      } else {
        AnnounceSubsequence(a, b[1..]);
      }
    }
  }

  /**
   * `check_courses`: one run of the poll job, given whether the course page
   * still loads (`alive`) and the snapshot fetched afterwards. Notices go out
   * for exactly the firing courses of a non-empty fetch, one each and in
   * snapshot order, or a single expiry notice; `last_check` is replaced only by a non-empty fetch; the driver
   * and the subscription are dropped only by an expired session.
   */
  function Poll(s: Session, alive: bool, fetched: seq<Entry>): (r: Stepped)
    ensures forall n, c :: CourseAvailable(n, c) in r.notices <==>
      Active(s) && alive && (n, c) in fetched && c > 0 && Lookup(s.lastCheck, n) == Some(0)
    ensures SessionExpired in r.notices <==> Active(s) && !alive
    ensures SessionExpired in r.notices ==> r.notices == [SessionExpired]
    ensures !(Active(s) && !alive) ==> SubsequenceOf(r.notices, Announce(fetched))
    ensures r.session.lastCheck == if Active(s) && alive && fetched != [] then fetched else s.lastCheck
    ensures r.session.driverPresent <==> s.driverPresent && (alive || !s.subscribed)
    ensures r.session.subscribed <==> s.subscribed && (alive || !s.driverPresent)
  {
    if !s.subscribed || !s.driverPresent then Stepped(s, [])
    else if !alive then
      Stepped(s.(driverPresent := false, subscribed := false), [SessionExpired])
    else if fetched == [] then Stepped(s, [])
    else
      var ts := Transitions(s.lastCheck, fetched);
      AnnounceMembers(ts);
      AnnounceSubsequence(ts, fetched);
      Stepped(s.(lastCheck := fetched), Announce(ts))
  }

  /** Polling twice with the same non-empty snapshot announces nothing the second time. */
  lemma PollTwiceSilent(s: Session, alive1: bool, alive2: bool, fetched: seq<Entry>)
    requires DistinctNames(fetched)
    ensures forall n, c :: CourseAvailable(n, c) !in Poll(Poll(s, alive1, fetched).session, alive2, fetched).notices
  {
  }

  /**
   * A course that a non-empty poll did not list has no baseline afterwards,
   * so the next poll cannot announce it, whatever it fetches.
   */
  lemma DroppedCourseSilent(s: Session, fetched: seq<Entry>, alive: bool, next: seq<Entry>, course: string)
    requires fetched != [] && course !in Names(fetched)
    ensures forall c :: CourseAvailable(course, c) !in Poll(Poll(s, true, fetched).session, alive, next).notices
  {
  }

  /** With an empty baseline (`last_check == {}`) a poll announces nothing. */
  lemma EmptyBaselineSilent(s: Session, alive: bool, fetched: seq<Entry>)
    requires s.lastCheck == []
    ensures forall n, c :: CourseAvailable(n, c) !in Poll(s, alive, fetched).notices
  {
  }

  /** How the password step ended: see `get_password`. */
  datatype LoginOutcome =
    | Aborted                             // reading the message, the username or the first reply raised
    | SetupFailed                         // starting the browser raised
    | Rejected                            // `login_to_system` returned False
    | Accepted(courses: seq<Entry>)       // logged in; the snapshot read right after
    | ConfirmFailed(courses: seq<Entry>)  // as Accepted, but the success reply raised

  /** Did the login go through far enough to store its snapshot in `last_check`? */
  predicate StoresSnapshot(outcome: LoginOutcome) {
    outcome.Accepted? || outcome.ConfirmFailed?
  }

  /**
   * `get_password`: the driver exists afterwards exactly when the login was
   * accepted and confirmed (or the step aborted before touching an existing
   * driver); a login that got as far as reading the snapshot takes it, even
   * an empty one, as the baseline, even when the confirmation reply then
   * fails and the error path drops the driver; the subscription flag is
   * never touched.
   */
  function Login(s: Session, outcome: LoginOutcome): (r: Session)
    ensures r.subscribed == s.subscribed
    ensures r.driverPresent <==> outcome.Accepted? || (outcome.Aborted? && s.driverPresent)
    ensures StoresSnapshot(outcome) ==> r.lastCheck == outcome.courses
    ensures !StoresSnapshot(outcome) ==> r.lastCheck == s.lastCheck
  {
    match outcome
    case Aborted => s
    case SetupFailed => s.(driverPresent := false)
    case Rejected => s.(driverPresent := false)
    case Accepted(courses) => s.(driverPresent := true, lastCheck := courses)
    case ConfirmFailed(courses) => s.(driverPresent := false, lastCheck := courses)
  }

  /**
   * `subscribe`: without a driver, or when the course page does not load,
   * nothing changes; otherwise the flag is set, and a non-empty snapshot
   * becomes the baseline provided the status reply listing it went out
   * (`statusSent`). When that reply raises, the handler skips the baseline
   * update but still sets the flag. The driver is never dropped here.
   */
  function Subscribe(s: Session, alive: bool, fetched: seq<Entry>, statusSent: bool): (r: Session)
    ensures !s.driverPresent || !alive ==> r == s
    ensures r.driverPresent == s.driverPresent
    ensures r.subscribed <==> s.subscribed || (s.driverPresent && alive)
    ensures r.lastCheck ==
      if s.driverPresent && alive && fetched != [] && statusSent then fetched else s.lastCheck
  {
    if !s.driverPresent || !alive then s
    else if fetched == [] || !statusSent then s.(subscribed := true)
    else s.(subscribed := true, lastCheck := fetched)
  }

  /** `unsubscribe`: quits the driver and clears the flag; `last_check` is kept. */
  function Unsubscribe(s: Session): (r: Session)
    ensures !r.driverPresent && !r.subscribed
    ensures r.lastCheck == s.lastCheck
  {
    s.(driverPresent := false, subscribed := false)
  }

  /** `stop`: the same state effect as `unsubscribe` (the job removal is not modelled). */
  function Stop(s: Session): (r: Session)
    ensures !r.driverPresent && !r.subscribed
    ensures r.lastCheck == s.lastCheck
  {
    Unsubscribe(s)
  }

  /** What reaches the bot: a finished password step, a command, or a run of the poll job. */
  datatype Event =
    | LoginDone(outcome: LoginOutcome)
    | SubscribeCmd(pageAlive: bool, fetched: seq<Entry>, statusSent: bool)
    | UnsubscribeCmd
    | StopCmd
    | Tick(alive: bool, polled: seq<Entry>)

  function Step(s: Session, e: Event): Stepped {
    match e
    case LoginDone(outcome) => Stepped(Login(s, outcome), [])
    case SubscribeCmd(alive, fetched, sent) => Stepped(Subscribe(s, alive, fetched, sent), [])
    case UnsubscribeCmd => Stepped(Unsubscribe(s), [])
    case StopCmd => Stepped(Stop(s), [])
    case Tick(alive, fetched) => Poll(s, alive, fetched)
  }

  /** Runs the events in order, collecting every notice sent. */
  function Run(s: Session, es: seq<Event>): Stepped
    decreases |es|
  {
    if es == [] then Stepped(s, [])
    else
      var first := Step(s, es[0]);
      var rest := Run(first.session, es[1..]);
      Stepped(rest.session, first.notices + rest.notices)
  }

  /** Only a poll with a subscription and a driver ever announces a course. */
  lemma StepAnnouncesOnlyWhenActive(s: Session, e: Event, n: string, c: int)
    ensures CourseAvailable(n, c) in Step(s, e).notices ==> e.Tick? && Active(s) && e.alive
  {
  }

  /** The snapshot an event carries is a real dict (no name twice). */
  ghost predicate WellFormedEvent(e: Event) {
    match e
    case LoginDone(outcome) => StoresSnapshot(outcome) ==> DistinctNames(outcome.courses)
    case SubscribeCmd(_, fetched, _) => DistinctNames(fetched)
    case Tick(_, fetched) => DistinctNames(fetched)
    case _ => true
  }

  /** `last_check` stays a proper dict through any run of well-formed events. */
  lemma {:induction false} RunKeepsDistinct(s: Session, es: seq<Event>)
    requires DistinctNames(s.lastCheck)
    requires forall i :: 0 <= i < |es| ==> WellFormedEvent(es[i])
    ensures DistinctNames(Run(s, es).session.lastCheck)
    decreases |es|
  {
    if es != [] {
      assert WellFormedEvent(es[0]);
      var next := Step(s, es[0]).session;
      assert DistinctNames(next.lastCheck);
      assert forall i :: 0 <= i < |es[1..]| ==> es[1..][i] == es[i + 1];
      RunKeepsDistinct(next, es[1..]);
    }
  }

  /**
   * Without a subscription the poll job is inert: any number of polls send
   * nothing and change nothing (the state after `/unsubscribe`, `/stop`, or
   * an expired session).
   */
  lemma {:induction false} UnsubscribedPollsInert(s: Session, es: seq<Event>)
    requires !s.subscribed
    requires forall i :: 0 <= i < |es| ==> es[i].Tick?
    ensures Run(s, es) == Stepped(s, [])
    decreases |es|
  {
    if es != [] {
      assert es[0].Tick?;
      assert forall i :: 0 <= i < |es[1..]| ==> es[1..][i] == es[i + 1];
      UnsubscribedPollsInert(s, es[1..]);
    }
  }
}
